=== FILE: README.md ===
# Banking ledger core in Dafny

A model of the domain logic of a small interactive banking program written in
Python, in two versions. `desafio.py` keeps one account as the triple
`(saldo, extrato, numero_saques)` in `main` and changes it with `depositar`
and `sacar`. `desafio2.py` adds a user list and an account list:
`validar_cpf` checks a CPF (the 11-digit Brazilian tax identifier),
`criar_usuario` and `filtrar_usuario` register and find users,
`criar_conta` and `encontrar_conta` open and find accounts, and `main`
numbers accounts `len(contas) + 1` and routes deposits and withdrawals to
the first account a CPF owns.

Every value the program reads with `input()` is a parameter. The refusals
that `depositar`, `sacar`, `criar_usuario` and `criar_conta` print become
returned outcomes or errors. The menu dispatch returns only the new state. Amounts are integer centavos,
so the withdrawal limit of 500 reais is `50000`. The text statement
(`extrato`) is a sequence of `Deposit(v)` / `Withdrawal(v)` records.

Modules, leaves first:

- `Wrappers` (`wrappers.dfy`): `Option` and `Result`.
- `Text` (`text.dfy`): `str.isdigit` and `str.strip`.
- `Ledger` (`ledger.dfy`): statement records, their totals, and the
  consistency predicate: balance = deposits − withdrawals, and counter = number of withdrawals.
- `Engine` (`engine.dfy`): `depositar` and `sacar`. Both versions share the
  same decision logic, so it is modelled once.
- `SingleAccount` (`single_account.dfy`): the first version's `main` state and session.
- `Registry` (`registry.dfy`): CPF validation and the user and account lists.
- `Bank` (`bank.dfy`): the second version's `main`, i.e. the menu options that change the lists.

## Model

| member | source | states |
|---|---|---|
| Text.AllDigits | desafio2.py:24 | `isdigit()` holds iff the string is non-empty and every character is a digit |
| Text.Strip | desafio2.py:86-87 | the stripped name is the infix left after cutting whitespace on both sides. Everything cut is whitespace, and what remains neither starts nor ends with whitespace. It is empty iff the typed name was all whitespace |
| Text.StripIdempotent | desafio2.py:86 | stripping an already stripped name changes nothing |
| Registry.ValidCpf | desafio2.py:20-27 | a CPF is accepted iff it has exactly 11 characters and all of them are digits |
| Engine.ApplyDeposit | desafio2.py:29-39 | a deposit succeeds iff the amount is positive. Then the balance rises by exactly that amount and exactly one Deposit line is appended. Otherwise the failure is InvalidAmount and balance and statement come back unchanged |
| Engine.ApplyWithdrawal | desafio2.py:41-62 | exactly one outcome, with its exact condition: InsufficientBalance iff amount > balance; LimitExceeded iff it fits the balance but exceeds the limit; WithdrawalCapReached iff it fits both but the counter is at the cap; InvalidAmount iff all three pass and amount ≤ 0. Success iff 0 < amount ≤ balance, amount ≤ limit and counter < cap. Any failure returns all three figures unchanged. Success returns balance − amount ≥ 0, one appended Withdrawal line and counter + 1 ≤ cap |
| Engine.WithdrawIsFirstFailingGuard | desafio.py:56-72 | the withdrawal outcome is the reason of the first failing check in the ordered list balance, limit, count, positivity, and success when none fails |
| Engine.DepositKeepsConsistent | desafio.py:30-37 | whatever the amount, a deposit keeps balance = deposits − withdrawals and counter = withdrawal lines |
| Engine.WithdrawKeepsConsistent | desafio.py:60-74 | whatever the amount and outcome, a withdrawal keeps balance, statement and counter consistent |
| SingleAccount.Step | desafio.py:96-109 | one "d" or "s": a deposit takes effect iff its amount is positive and then raises the balance by it; a withdrawal takes effect iff 0 < amount ≤ balance, amount ≤ 500,00 and fewer than 3 withdrawals were made, and then lowers the balance by it and adds one to the counter. The triple otherwise stays exactly as it was, an accepted operation appends its line, a deposit never moves the counter, and a healthy triple (balance ≥ 0, 0 ≤ counter ≤ 3, consistent with the statement) stays healthy |
| SingleAccount.Run | desafio.py:101-109 | over any sequence of "d"/"s" operations the old statement is a prefix of the new one, so no line is removed or changed, and at most one line is added per operation |
| SingleAccount.SessionStaysHealthy | desafio.py:101-109 | any sequence of deposits and withdrawals from a healthy triple leaves it healthy |
| SingleAccount.OpeningSessionHealthy | desafio.py:95-109 | starting from `saldo = 0`, `numero_saques = 0` with limits 500 and 3, any sequence of operations keeps balance ≥ 0 and 0 ≤ counter ≤ 3. The balance equals deposits minus withdrawals on the statement, and the counter equals the number of withdrawal lines |
| SingleAccount.Scenario | desafio.py:95-109 | from the opening triple, deposit 100,00 then withdraw 50,00 leaves 50,00, two lines and one withdrawal; from there 600,00 and 1000,00 are refused with nothing changed; after a deposit and three withdrawals of 30,00 a fourth withdrawal is refused with nothing changed |
| Registry.UserIndex | desafio2.py:101-102 | the position found holds the CPF and no earlier user holds it, and there is none iff no user holds it |
| Registry.FindUser | desafio2.py:97-102 | the user returned has the CPF and is the first such user in the list, i.e. no earlier user has it. `None` iff no user has it |
| Registry.FindsRegisteredUser | desafio2.py:97-102 | when CPFs are unique, looking up a registered user's CPF returns that user |
| Registry.CreateUser | desafio2.py:73-95 | refusals in order: InvalidCpf iff the CPF is malformed; DuplicateCpf iff it is valid and already registered; MissingName iff it is valid and new but the name is all whitespace. On any refusal the list is unchanged. Otherwise exactly one user (stripped name, CPF) is appended, and CPF uniqueness is preserved |
| Registry.AccountIndex | desafio2.py:126-129 | the position found is the first account whose owner has the CPF, and there is none iff no account's owner has it |
| Registry.FindAccount | desafio2.py:122-129 | the account returned is owned by the CPF and is the first such account in the list, i.e. no earlier account's owner has it. `None` iff no account is |
| Registry.CreateAccount | desafio2.py:104-120 | InvalidCpf iff the CPF is malformed, UserNotFound iff it is valid but unregistered; either way the list is unchanged. Otherwise exactly one account is appended and returned: the given agency and number, a registered owner with that CPF, balance 0, empty statement, counter 0 |
| Registry.OpenNextAccount | desafio2.py:220-222 | "nc" opens an account iff the CPF is valid and registered; then exactly the returned account is appended, and it gets number `len(contas) + 1`, so a list in which account k carries number k keeps that property; a refusal leaves the list unchanged |
| Bank.Target | desafio2.py:181-185 | a deposit or withdrawal reaches an account iff the CPF is valid and owns one, and then it reaches the first account that CPF owns |
| Bank.AddUser | desafio2.py:217-218 | "nu" appends exactly User(stripped name, CPF) when the CPF is valid and unregistered and the stripped name is non-empty; otherwise both lists come back unchanged |
| Bank.AddAccount | desafio2.py:220-222 | "nc" changes nothing unless the CPF is valid and registered; then it appends exactly one account, with agency "0001", number `len(contas) + 1`, an owner with that CPF, and zero balance, statement and counter |
| Bank.DepositInto | desafio2.py:184-187 | "d" on the account found: only that account can change; a positive amount raises its balance by the amount and appends its Deposit line, any other amount changes nothing |
| Bank.WithdrawOutOf | desafio2.py:194-204 | "s" on the account found: only that account can change, and it changes iff 0 < amount ≤ balance, amount ≤ 500,00 and counter < 3; it then loses the amount, gains the Withdrawal line and adds one to the counter |
| Bank.Step | desafio2.py:174-222 | one menu option. "nu" appends exactly User(stripped name, CPF) when the CPF is valid and unregistered and the stripped name is non-empty, and otherwise changes nothing. "nc" changes nothing unless the CPF is valid and registered, and then appends exactly one account: agency "0001", number `len(contas) + 1`, owner with that CPF, zero figures. "d" on the target account credits a positive amount and appends its Deposit line, and changes nothing otherwise. "s" changes the target account iff 0 < amount ≤ balance, amount ≤ 500,00 and counter < 3, and then lowers the balance, appends the Withdrawal line and adds one to the counter. Across all options, users are only added, accounts only appended, no account changes agency, number or owner, no statement loses a line, and accounts other than the target come back identical |
| Bank.Run | desafio2.py:174-235 | over any session no user or account is removed, no account is re-identified, and every existing account's statement keeps its lines and only gains new ones at the end |
| Bank.LaterAccountUnreached | desafio2.py:191-197 | if an earlier account has the same owner CPF as a later one, no sequence of options ever changes the later account |
| Bank.StepKeepsInvariant | desafio2.py:181-222 | each of "nu", "nc", "d", "s" keeps: unique CPFs, account k numbered k, every owner registered, and every account with agency "0001", balance ≥ 0, 0 ≤ counter ≤ 3, consistent with its statement |
| Bank.SessionKeepsInvariant | desafio2.py:174-235 | any sequence of menu options from lists satisfying that invariant keeps it |
| Bank.EmptySessionKeepsInvariant | desafio2.py:166-171 | from `main`'s empty lists, any session keeps the invariant |

## Left out

- Menu loops, `input()` prompts, the `print` messages of the menu dispatch ("CPF inválido", "Conta não encontrada"), `textwrap` and `exibir_menu`: interactive I/O. The menu options that only display or quit leave the state unchanged, so they are not commands of the model.
- `mostrar_extrato`, `exibir_extrato`, `listar_contas`, `listar_usuarios`: display only. They read the state and change nothing.
- The `f"{valor:.2f}"` text of statement lines: the statement is a sequence of records.
- Python `float` parsing and arithmetic: amounts are exact integer centavos. NaN and infinity are not modelled, and neither is rounding.
- Text.AllDigits: Python's `str.isdigit` also accepts non-ASCII digits (superscripts, other scripts). Only '0'..'9' are modelled as digits.
- The birth date and address typed in `criar_usuario`: stored but never checked or read by any rule.
- Registry.CreateUser: in the source the name is read only after the CPF checks pass. Here every typed value is a parameter, so the order of prompts is not modelled.

=== FILE: bank.dfy ===
/** The second version's `main`: the user and account lists, and the menu
    options that change them ("nu", "nc", "d", "s"). The options that only
    display ("e", "lc", "lu") and "q" leave the lists as they are. */
module Bank {
  import opened Wrappers
  import opened Ledger
  import opened Registry
  import Text
  import Engine

  /** `agencia_padrao = "0001"`. */
  const DEFAULT_AGENCY: string := "0001"
  /** `limite=500` reais per withdrawal, in centavos. */
  const WITHDRAWAL_LIMIT: int := 50000
  /** `limite_saques = 3` per account for the whole session. */
  const MAX_WITHDRAWALS: int := 3

  /** `usuarios` and `contas`. */
  datatype Lists = Lists(users: seq<User>, accounts: seq<Account>)

  /** `usuarios = []`, `contas = []`. */
  const Empty: Lists := Lists([], [])

  /** A menu option that can change the lists, with what was typed. */
  datatype Command =
    | NewUser(cpf: string, name: string)         // "nu"
    | NewAccount(cpf: string)                    // "nc"
    | DepositTo(cpf: string, amount: int)        // "d"
    | WithdrawFrom(cpf: string, amount: int)     // "s"

  /** An account whose figures agree with its statement and policy. */
  predicate AccountHealthy(a: Account) {
    && a.agency == DEFAULT_AGENCY
    && a.balance >= 0
    && 0 <= a.withdrawals <= MAX_WITHDRAWALS
    && Consistent(a.balance, a.statement, a.withdrawals)
  }

  /** What holds of the lists throughout a session. */
  predicate Invariant(b: Lists) {
    && UniqueCpfs(b.users)
    && NumberedInOrder(b.accounts)
    && (forall k :: 0 <= k < |b.accounts| ==> b.accounts[k].owner in b.users)
    && (forall k :: 0 <= k < |b.accounts| ==> AccountHealthy(b.accounts[k]))
  }

  /** The account an operation on this CPF reaches: only when the CPF is
      valid, and then the first account the CPF owns. */
  function Target(cpf: string, accounts: seq<Account>): (r: Option<nat>)
    ensures r.Some? <==> ValidCpf(cpf) && exists i :: 0 <= i < |accounts| && accounts[i].owner.cpf == cpf
    ensures r.Some? ==> r.value < |accounts| && accounts[r.value].owner.cpf == cpf
                        && forall j :: 0 <= j < r.value ==> accounts[j].owner.cpf != cpf
  {
    if ValidCpf(cpf) then AccountIndex(cpf, accounts) else None
  }

  /** One pass through the menu loop. Users are only ever added and accounts
      only ever appended; no account changes its agency, number or owner, and
      no statement loses or alters a line. "nu" touches no account, "nc" no
      existing account, and "d" and "s" touch only the account `Target`
      picks, leaving both lists the same length.
      What each option does: "nu" adds one user exactly when `criar_usuario`
      accepts; "nc" appends exactly when the CPF is valid and registered, an
      account of agency "0001" numbered `len(contas) + 1` with zero figures;
      "d" credits a positive amount to the target account; "s" changes the
      target account exactly when `sacar` with limits 500,00 and 3 accepts. */
  function Step(b: Lists, c: Command): (r: Lists)
    ensures b.users <= r.users
    ensures |b.accounts| <= |r.accounts|
    ensures forall k :: 0 <= k < |b.accounts| ==> SameIdentity(b.accounts[k], r.accounts[k])
    ensures forall k :: 0 <= k < |b.accounts| ==> b.accounts[k].statement <= r.accounts[k].statement
    ensures forall k :: 0 <= k < |b.accounts| && (c.NewUser? || c.NewAccount? || Target(c.cpf, b.accounts) != Some(k))
              ==> r.accounts[k] == b.accounts[k]
    ensures (c.DepositTo? || c.WithdrawFrom?) ==> r.users == b.users && |r.accounts| == |b.accounts|
    ensures c.NewUser? ==> r.accounts == b.accounts
    ensures c.NewUser? ==>
              (|r.users| == |b.users| + 1 <==> ValidCpf(c.cpf) && !Registered(c.cpf, b.users) && Text.Strip(c.name) != [])
    ensures c.NewUser? && !(ValidCpf(c.cpf) && !Registered(c.cpf, b.users) && Text.Strip(c.name) != []) ==> r == b
    ensures c.NewUser? && ValidCpf(c.cpf) && !Registered(c.cpf, b.users) && Text.Strip(c.name) != [] ==>
              r.users == b.users + [User(Text.Strip(c.name), c.cpf)]
    ensures c.NewAccount? ==> r.users == b.users
    ensures c.NewAccount? && !(ValidCpf(c.cpf) && Registered(c.cpf, b.users)) ==> r == b
    ensures c.NewAccount? ==> (|r.accounts| == |b.accounts| + 1 <==> ValidCpf(c.cpf) && Registered(c.cpf, b.users))
    ensures c.NewAccount? && |r.accounts| == |b.accounts| + 1 ==>
              var a := r.accounts[|b.accounts|];
              && a.number == |b.accounts| + 1 && a.agency == DEFAULT_AGENCY && a.owner.cpf == c.cpf
              && a.balance == 0 && a.statement == [] && a.withdrawals == 0
    ensures c.DepositTo? && Target(c.cpf, b.accounts).Some? ==>
              var k := Target(c.cpf, b.accounts).value;
              if c.amount > 0 then
                && r.accounts[k].balance == b.accounts[k].balance + c.amount
                && r.accounts[k].statement == b.accounts[k].statement + [Deposit(c.amount)]
                && r.accounts[k].withdrawals == b.accounts[k].withdrawals
              else r.accounts[k] == b.accounts[k]
    ensures c.WithdrawFrom? && Target(c.cpf, b.accounts).Some? ==>
              var k := Target(c.cpf, b.accounts).value;
              var a := b.accounts[k];
              && (r.accounts[k] != a <==>
                    0 < c.amount <= a.balance && c.amount <= WITHDRAWAL_LIMIT && a.withdrawals < MAX_WITHDRAWALS)
              && (r.accounts[k] != a ==>
                    && r.accounts[k].balance == a.balance - c.amount
                    && r.accounts[k].statement == a.statement + [Withdrawal(c.amount)]
                    && r.accounts[k].withdrawals == a.withdrawals + 1)
  {
    match c
    case NewUser(cpf, name) => AddUser(b, cpf, name)
    case NewAccount(cpf) => AddAccount(b, cpf)
    case DepositTo(cpf, v) =>
      (match Target(cpf, b.accounts)
       case None => b
       case Some(k) => DepositInto(b, k, v))
    case WithdrawFrom(cpf, v) =>
      (match Target(cpf, b.accounts)
       case None => b
       case Some(k) => WithdrawOutOf(b, k, v))
  }

  /** Option "nu": `criar_usuario` on the user list. Exactly the user it
      accepts is appended; a refusal changes nothing. */
  function AddUser(b: Lists, cpf: string, name: string): (r: Lists)
    ensures r.accounts == b.accounts && b.users <= r.users
    ensures !(ValidCpf(cpf) && !Registered(cpf, b.users) && Text.Strip(name) != []) ==> r == b
    ensures ValidCpf(cpf) && !Registered(cpf, b.users) && Text.Strip(name) != [] ==>
              r.users == b.users + [User(Text.Strip(name), cpf)]
  {
    b.(users := CreateUser(b.users, cpf, name).users)
  }

  /** Option "nc": `numero_conta = len(contas) + 1`, then `criar_conta` with
      agency "0001". A refusal changes nothing; otherwise exactly one fresh
      account, numbered after the last, is appended for the CPF's user. */
  function AddAccount(b: Lists, cpf: string): (r: Lists)
    ensures r.users == b.users && b.accounts <= r.accounts
    ensures !(ValidCpf(cpf) && Registered(cpf, b.users)) ==> r == b
    ensures ValidCpf(cpf) && Registered(cpf, b.users) ==>
              && |r.accounts| == |b.accounts| + 1
              && var a := r.accounts[|b.accounts|];
                 && a.number == |b.accounts| + 1 && a.agency == DEFAULT_AGENCY && a.owner.cpf == cpf
                 && a.balance == 0 && a.statement == [] && a.withdrawals == 0
  {
    b.(accounts := OpenNextAccount(DEFAULT_AGENCY, cpf, b.users, b.accounts).accounts)
  }

  /** Option "d" once `encontrar_conta` found account k: `depositar` on its
      balance and statement, written back into the dict. Only account k can
      change, and only by a positive amount credited with its line. */
  function DepositInto(b: Lists, k: nat, v: int): (r: Lists)
    requires k < |b.accounts|
    ensures r.users == b.users && |r.accounts| == |b.accounts|
    ensures forall j :: 0 <= j < |b.accounts| && j != k ==> r.accounts[j] == b.accounts[j]
    ensures SameIdentity(b.accounts[k], r.accounts[k])
    ensures b.accounts[k].statement <= r.accounts[k].statement
    ensures if v > 0 then
              && r.accounts[k].balance == b.accounts[k].balance + v
              && r.accounts[k].statement == b.accounts[k].statement + [Deposit(v)]
              && r.accounts[k].withdrawals == b.accounts[k].withdrawals
            else r.accounts[k] == b.accounts[k]
  {
    var a := b.accounts[k];
    var d := Engine.ApplyDeposit(a.balance, v, a.statement);
    b.(accounts := b.accounts[k := a.(balance := d.balance, statement := d.statement)])
  }

  /** Option "s" once `encontrar_conta` found account k: `sacar` with
      `limite=500` and `limite_saques=3` on its figures, written back. Only
      account k can change, and only when `sacar` accepts. */
  function WithdrawOutOf(b: Lists, k: nat, v: int): (r: Lists)
    requires k < |b.accounts|
    ensures r.users == b.users && |r.accounts| == |b.accounts|
    ensures forall j :: 0 <= j < |b.accounts| && j != k ==> r.accounts[j] == b.accounts[j]
    ensures SameIdentity(b.accounts[k], r.accounts[k])
    ensures b.accounts[k].statement <= r.accounts[k].statement
    ensures var a := b.accounts[k];
            && (r.accounts[k] != a <==> 0 < v <= a.balance && v <= WITHDRAWAL_LIMIT && a.withdrawals < MAX_WITHDRAWALS)
            && (r.accounts[k] != a ==>
                  && r.accounts[k].balance == a.balance - v
                  && r.accounts[k].statement == a.statement + [Withdrawal(v)]
                  && r.accounts[k].withdrawals == a.withdrawals + 1)
  {
    var a := b.accounts[k];
    var w := Engine.ApplyWithdrawal(a.balance, v, a.statement, WITHDRAWAL_LIMIT, a.withdrawals, MAX_WITHDRAWALS);
    b.(accounts := b.accounts[k := a.(balance := w.balance, statement := w.statement, withdrawals := w.withdrawals)])
  }

  /** The same account: agency, number and owner agree. */
  predicate SameIdentity(a: Account, a': Account) {
    a.agency == a'.agency && a.number == a'.number && a.owner == a'.owner
  }

  /** The menu loop fed a sequence of commands. Over a whole session no user
      is removed, no account is removed or re-identified, and every existing
      account's statement only gains lines at its end. */
  function Run(b: Lists, cs: seq<Command>): (r: Lists)
    ensures b.users <= r.users
    ensures |b.accounts| <= |r.accounts|
    ensures forall k :: 0 <= k < |b.accounts| ==> SameIdentity(b.accounts[k], r.accounts[k])
    ensures forall k :: 0 <= k < |b.accounts| ==> b.accounts[k].statement <= r.accounts[k].statement
    decreases |cs|
  {
    if cs == [] then b
    else
      Run(Step(b, cs[0]), cs[1..])
  }

  /** A user's second account is out of reach: every deposit and withdrawal
      by that CPF lands on an earlier account, so a later account with the
      same owner CPF stays exactly as it is for the rest of the session. */
  lemma {:induction false} LaterAccountUnreached(b: Lists, cs: seq<Command>, i: nat, j: nat)
    requires i < j < |b.accounts| && b.accounts[i].owner.cpf == b.accounts[j].owner.cpf
    ensures j < |Run(b, cs).accounts| && Run(b, cs).accounts[j] == b.accounts[j]
    decreases |cs|
  {
    if cs != [] {
      LaterAccountUnreached(Step(b, cs[0]), cs[1..], i, j);
    }
  }

  /** Every menu option keeps the invariant. */
  lemma StepKeepsInvariant(b: Lists, c: Command)
    requires Invariant(b)
    ensures Invariant(Step(b, c))
  {
    var b' := Step(b, c);
    match c
    case NewUser(cpf, name) =>
      assert forall k :: 0 <= k < |b.accounts| ==> b.accounts[k].owner in b'.users;
    case NewAccount(cpf) =>
      assert b'.users == b.users;
    case DepositTo(cpf, v) =>
      if Target(cpf, b.accounts).Some? {
        var k := Target(cpf, b.accounts).value;
        var a := b.accounts[k];
        Engine.DepositKeepsConsistent(a.balance, v, a.statement, a.withdrawals);
        assert AccountHealthy(b'.accounts[k]);
      }
    case WithdrawFrom(cpf, v) =>
      if Target(cpf, b.accounts).Some? {
        var k := Target(cpf, b.accounts).value;
        var a := b.accounts[k];
        Engine.WithdrawKeepsConsistent(a.balance, v, a.statement, WITHDRAWAL_LIMIT, a.withdrawals, MAX_WITHDRAWALS);
        assert AccountHealthy(b'.accounts[k]);
      }
  }

  /** From the empty lists, whatever is typed: CPFs stay unique, account k
      carries number k, every owner is a registered user, and every account's
      balance is non-negative, equals deposits minus withdrawals, and its
      counter equals its withdrawal lines and stays within three. */
  lemma {:induction false} SessionKeepsInvariant(b: Lists, cs: seq<Command>)
    requires Invariant(b)
    ensures Invariant(Run(b, cs))
    decreases |cs|
  {
    if cs != [] {
      StepKeepsInvariant(b, cs[0]);
      SessionKeepsInvariant(Step(b, cs[0]), cs[1..]);
    }
  }

  /** The session from `main`'s empty lists keeps the invariant. */
  lemma EmptySessionKeepsInvariant(cs: seq<Command>)
    ensures Invariant(Run(Empty, cs))
  {
    SessionKeepsInvariant(Empty, cs);
  }
}

=== FILE: engine.dfy ===
/** The transaction engine: `depositar` and `sacar`, which have the same
    decision logic in both versions of the program. The amount the source reads
    with `input()` is a parameter; the printed message becomes an `Outcome`. */
module Engine {
  import opened Ledger

  /** Why an operation was refused, one per failure message of the source. */
  datatype Failure =
    | InsufficientBalance   // "não possui saldo suficiente"
    | LimitExceeded         // "O valor do saque excede o limite"
    | WithdrawalCapReached  // "limite de saques" / "Número máximo de saques"
    | InvalidAmount         // "O valor informado é inválido"

  datatype Outcome = Done | Failed(reason: Failure)

  /** What `depositar` hands back: `(saldo, extrato)` and what it printed. */
  datatype DepositReply = DepositReply(balance: int, statement: seq<Txn>, outcome: Outcome)

  /** What `sacar` hands back: `(saldo, extrato, numero_saques)` and what it printed. */
  datatype WithdrawReply = WithdrawReply(balance: int, statement: seq<Txn>, withdrawals: int, outcome: Outcome)

  /** `depositar(saldo, valor, extrato)`: only a strictly positive amount is
      credited; anything else is refused and nothing changes. */
  function ApplyDeposit(balance: int, amount: int, statement: seq<Txn>): (r: DepositReply)
    ensures r.outcome.Done? <==> amount > 0
    ensures r.outcome.Failed? ==> r.outcome.reason == InvalidAmount
    ensures r.outcome.Done? ==> r.balance == balance + amount && r.statement == statement + [Deposit(amount)]
    ensures r.outcome.Failed? ==> r.balance == balance && r.statement == statement
  {
    if amount > 0 then DepositReply(balance + amount, statement + [Deposit(amount)], Done)
    else DepositReply(balance, statement, Failed(InvalidAmount))
  }

  /** `sacar(saldo, valor, extrato, limite, numero_saques, limite_saques)`.
      The four refusals are tried in a fixed order and the first that applies
      is the one reported, so a non-positive amount is called invalid only
      when it fits the balance, the limit and the counter. */
  function ApplyWithdrawal(balance: int, amount: int, statement: seq<Txn>, limit: int, withdrawals: int, maxWithdrawals: int): (r: WithdrawReply)
    ensures r.outcome == Failed(InsufficientBalance) <==> amount > balance
    ensures r.outcome == Failed(LimitExceeded) <==> amount <= balance && amount > limit
    ensures r.outcome == Failed(WithdrawalCapReached) <==> amount <= balance && amount <= limit && withdrawals >= maxWithdrawals
    ensures r.outcome == Failed(InvalidAmount) <==> amount <= balance && amount <= limit && withdrawals < maxWithdrawals && amount <= 0
    ensures r.outcome.Done? <==> 0 < amount <= balance && amount <= limit && withdrawals < maxWithdrawals
    ensures r.outcome.Failed? ==> r.balance == balance && r.statement == statement && r.withdrawals == withdrawals
    ensures r.outcome.Done? ==>
              && r.balance == balance - amount >= 0
              && r.statement == statement + [Withdrawal(amount)]
              && r.withdrawals == withdrawals + 1 <= maxWithdrawals
  {
    var exceedsBalance := amount > balance;
    var exceedsLimit := amount > limit;
    var exceedsCount := withdrawals >= maxWithdrawals;
    if exceedsBalance then WithdrawReply(balance, statement, withdrawals, Failed(InsufficientBalance))
    else if exceedsLimit then WithdrawReply(balance, statement, withdrawals, Failed(LimitExceeded))
    else if exceedsCount then WithdrawReply(balance, statement, withdrawals, Failed(WithdrawalCapReached))
    else if amount > 0 then WithdrawReply(balance - amount, statement + [Withdrawal(amount)], withdrawals + 1, Done)
    else WithdrawReply(balance, statement, withdrawals, Failed(InvalidAmount))
  }

  // An independent statement of "first match wins": the refusal conditions as
  // an ordered list, and the outcome it selects.

  /** A refusal condition paired with the failure it reports. */
  datatype Guard = Guard(fails: bool, reason: Failure)

  /** The withdrawal guards in the order the source tries them. */
  function WithdrawGuards(balance: int, amount: int, limit: int, withdrawals: int, maxWithdrawals: int): seq<Guard> {
    [ Guard(amount > balance, InsufficientBalance),
      Guard(amount > limit, LimitExceeded),
      Guard(withdrawals >= maxWithdrawals, WithdrawalCapReached),
      Guard(amount <= 0, InvalidAmount) ]
  }

  /** The reason of the earliest guard that fails, or `Done` when none does. */
  function FirstFailing(guards: seq<Guard>): (r: Outcome)
    ensures r.Done? <==> forall i :: 0 <= i < |guards| ==> !guards[i].fails
    ensures r.Failed? ==> exists i :: 0 <= i < |guards| && guards[i].fails && guards[i].reason == r.reason
                                      && forall j :: 0 <= j < i ==> !guards[j].fails
  {
    if guards == [] then Done
    else if guards[0].fails then Failed(guards[0].reason)
    else
      FirstFailing(guards[1..])
  }

  /** `sacar` reports exactly the reason of the first failing guard, and
      changes the account exactly when no guard fails. */
  lemma WithdrawIsFirstFailingGuard(balance: int, amount: int, statement: seq<Txn>, limit: int, withdrawals: int, maxWithdrawals: int)
    ensures ApplyWithdrawal(balance, amount, statement, limit, withdrawals, maxWithdrawals).outcome
            == FirstFailing(WithdrawGuards(balance, amount, limit, withdrawals, maxWithdrawals))
  {
    var g := WithdrawGuards(balance, amount, limit, withdrawals, maxWithdrawals);
    var positivity := [Guard(amount <= 0, InvalidAmount)];
    var count := [Guard(withdrawals >= maxWithdrawals, WithdrawalCapReached)] + positivity;
    var limitOnward := [Guard(amount > limit, LimitExceeded)] + count;
    assert g[1..] == limitOnward && limitOnward[1..] == count && count[1..] == positivity;
    assert positivity[1..] == [];
    assert FirstFailing(positivity) == if amount <= 0 then Failed(InvalidAmount) else Done;
    assert FirstFailing(count) == if withdrawals >= maxWithdrawals then Failed(WithdrawalCapReached) else FirstFailing(positivity);
    assert FirstFailing(limitOnward) == if amount > limit then Failed(LimitExceeded) else FirstFailing(count);
    assert FirstFailing(g) == if amount > balance then Failed(InsufficientBalance) else FirstFailing(limitOnward);
  }

  /** Accepted or refused, a deposit keeps the balance and counter in step
      with the statement. */
  lemma DepositKeepsConsistent(balance: int, amount: int, statement: seq<Txn>, withdrawals: int)
    requires Consistent(balance, statement, withdrawals)
    ensures var r := ApplyDeposit(balance, amount, statement);
            Consistent(r.balance, r.statement, withdrawals)
  {
  }

  /** Whatever `sacar` decides, balance, statement and counter stay in step. */
  lemma WithdrawKeepsConsistent(balance: int, amount: int, statement: seq<Txn>, limit: int, withdrawals: int, maxWithdrawals: int)
    requires Consistent(balance, statement, withdrawals)
    ensures var r := ApplyWithdrawal(balance, amount, statement, limit, withdrawals, maxWithdrawals);
            Consistent(r.balance, r.statement, r.withdrawals)
  {
  }
}

=== FILE: ledger.dfy ===
/** The account statement (`extrato`). The source appends one formatted text
    line per accepted operation; here each line is a record of its kind and
    amount, with amounts in integer centavos. */
module Ledger {

  /** One statement line: "Depósito: R$ v" or "Saque: R$ v". */
  datatype Txn = Deposit(amount: int) | Withdrawal(amount: int)

  /** Sum of the Deposit amounts in the statement. */
  function TotalDeposited(log: seq<Txn>): int
    decreases |log|
  {
    if log == [] then 0
    else TotalDeposited(log[..|log| - 1]) + (if log[|log| - 1].Deposit? then log[|log| - 1].amount else 0)
  }

  /** Sum of the Withdrawal amounts in the statement. */
  function TotalWithdrawn(log: seq<Txn>): int
    decreases |log|
  {
    if log == [] then 0
    else TotalWithdrawn(log[..|log| - 1]) + (if log[|log| - 1].Withdrawal? then log[|log| - 1].amount else 0)
  }

  /** Number of Withdrawal lines in the statement. */
  function WithdrawalCount(log: seq<Txn>): nat
    decreases |log|
  {
    if log == [] then 0
    else WithdrawalCount(log[..|log| - 1]) + (if log[|log| - 1].Withdrawal? then 1 else 0)
  }

  /** Every line records a strictly positive amount. */
  predicate PositiveAmounts(log: seq<Txn>) {
    forall i :: 0 <= i < |log| ==> log[i].amount > 0
  }

  /** The account's running figures agree with its statement: the balance is
      what was deposited minus what was withdrawn, and the withdrawal counter
      is the number of withdrawal lines. */
  predicate Consistent(balance: int, log: seq<Txn>, withdrawals: int) {
    && balance == TotalDeposited(log) - TotalWithdrawn(log)
    && withdrawals == WithdrawalCount(log)
    && PositiveAmounts(log)
  }
}

=== FILE: registry.dfy ===
/** The user and account lists of the second version of the program and the
    functions that read and extend them. Each function returns the list it
    was given, extended or untouched, in place of appending to a shared one. */
module Registry {
  import opened Wrappers
  import opened Text
  import opened Ledger

  /** A customer: `{"nome", "cpf"}` (the stored birth date and address are not
      modelled). */
  datatype User = User(name: string, cpf: string)

  /** An account dict: agency, number, owner, and the transaction triple. */
  datatype Account = Account(agency: string, number: int, owner: User,
                             balance: int, statement: seq<Txn>, withdrawals: int)

  /** The refusals of user registration and account opening. */
  datatype RegistryError = InvalidCpf | DuplicateCpf | MissingName | UserNotFound

  /** `validar_cpf`: exactly eleven characters, all digits. */
  function ValidCpf(cpf: string): (r: bool)
    ensures r <==> |cpf| == 11 && forall i :: 0 <= i < |cpf| ==> IsDigit(cpf[i])
  {
    !(|cpf| != 11 || !AllDigits(cpf))
  }

  /** No two users share a CPF. */
  predicate UniqueCpfs(users: seq<User>) {
    forall i, j :: 0 <= i < j < |users| ==> users[i].cpf != users[j].cpf
  }

  /** Some user has this CPF. */
  predicate Registered(cpf: string, users: seq<User>) {
    exists i :: 0 <= i < |users| && users[i].cpf == cpf
  }

  /** Position of the first user with this CPF. */
  function UserIndex(cpf: string, users: seq<User>): (r: Option<nat>)
    ensures r.None? <==> !Registered(cpf, users)
    ensures r.Some? ==> r.value < |users| && users[r.value].cpf == cpf
                        && forall j :: 0 <= j < r.value ==> users[j].cpf != cpf
    decreases |users|
  {
    if users == [] then None
    else if users[0].cpf == cpf then Some(0)
    else
      match UserIndex(cpf, users[1..])
      case None => None
      case Some(k) => Some(k + 1)
  }

  /** `filtrar_usuario`: the first user with this CPF, or `None`. */
  function FindUser(cpf: string, users: seq<User>): (r: Option<User>)
    ensures r.None? <==> !Registered(cpf, users)
    ensures r.Some? ==> r.value.cpf == cpf
    ensures r.Some? ==> exists k :: 0 <= k < |users| && users[k] == r.value
                                    && forall j :: 0 <= j < k ==> users[j].cpf != cpf
  {
    match UserIndex(cpf, users)
    case None => None
    case Some(k) => Some(users[k])
  }

  /** With unique CPFs, looking a registered user up by CPF finds that user. */
  lemma FindsRegisteredUser(users: seq<User>, k: nat)
    requires UniqueCpfs(users) && k < |users|
    ensures FindUser(users[k].cpf, users) == Some(users[k])
  {
  }

  /** The user list after `criar_usuario` and what was reported. */
  datatype Registration = Registration(users: seq<User>, result: Result<User, RegistryError>)

  /** `criar_usuario` with the typed CPF and name as parameters. The CPF is
      checked first, then that it is not yet registered, then that the name
      is not blank once stripped; only when all pass is one user appended. */
  function CreateUser(users: seq<User>, cpf: string, rawName: string): (r: Registration)
    ensures r.result == Err(InvalidCpf) <==> !ValidCpf(cpf)
    ensures r.result == Err(DuplicateCpf) <==> ValidCpf(cpf) && Registered(cpf, users)
    ensures r.result == Err(MissingName) <==>
              ValidCpf(cpf) && !Registered(cpf, users) && forall i :: 0 <= i < |rawName| ==> IsSpace(rawName[i])
    ensures r.result.Ok? <==> ValidCpf(cpf) && !Registered(cpf, users) && Strip(rawName) != []
    ensures r.result.Err? ==> r.users == users
    ensures r.result.Ok? ==> r.result.value == User(Strip(rawName), cpf) && r.users == users + [r.result.value]
    ensures UniqueCpfs(users) ==> UniqueCpfs(r.users)
  {
    if !ValidCpf(cpf) then Registration(users, Err(InvalidCpf))
    else if FindUser(cpf, users).Some? then Registration(users, Err(DuplicateCpf))
    else
      var name := Strip(rawName);
      if name == [] then Registration(users, Err(MissingName))
      else
        var user := User(name, cpf);
        Registration(users + [user], Ok(user))
  }

  /** Position of the first account whose owner has this CPF. */
  function AccountIndex(cpf: string, accounts: seq<Account>): (r: Option<nat>)
    ensures r.None? <==> forall i :: 0 <= i < |accounts| ==> accounts[i].owner.cpf != cpf
    ensures r.Some? ==> r.value < |accounts| && accounts[r.value].owner.cpf == cpf
                        && forall j :: 0 <= j < r.value ==> accounts[j].owner.cpf != cpf
    decreases |accounts|
  {
    if accounts == [] then None
    else if accounts[0].owner.cpf == cpf then Some(0)
    else
      match AccountIndex(cpf, accounts[1..])
      case None => None
      case Some(k) => Some(k + 1)
  }

  /** `encontrar_conta`: the first account owned by this CPF, or `None`. */
  function FindAccount(cpf: string, accounts: seq<Account>): (r: Option<Account>)
    ensures r.None? <==> forall i :: 0 <= i < |accounts| ==> accounts[i].owner.cpf != cpf
    ensures r.Some? ==> r.value.owner.cpf == cpf
    ensures r.Some? ==> exists k :: 0 <= k < |accounts| && accounts[k] == r.value
                                    && forall j :: 0 <= j < k ==> accounts[j].owner.cpf != cpf
  {
    match AccountIndex(cpf, accounts)
    case None => None
    case Some(k) => Some(accounts[k])
  }

  /** The account list after `criar_conta` and the account returned (`None`
      in the source on either refusal). */
  datatype AccountOpening = AccountOpening(accounts: seq<Account>, result: Result<Account, RegistryError>)

  /** `criar_conta(agencia, numero_conta, usuarios, contas)` with the typed CPF
      as a parameter. An invalid CPF or one with no user opens nothing;
      otherwise one fresh account for that user is appended and returned. */
  function CreateAccount(agency: string, number: int, cpf: string, users: seq<User>, accounts: seq<Account>): (r: AccountOpening)
    ensures r.result == Err(InvalidCpf) <==> !ValidCpf(cpf)
    ensures r.result == Err(UserNotFound) <==> ValidCpf(cpf) && !Registered(cpf, users)
    ensures r.result.Ok? <==> ValidCpf(cpf) && Registered(cpf, users)
    ensures r.result.Err? ==> r.accounts == accounts
    ensures r.result.Ok? ==>
              && r.accounts == accounts + [r.result.value]
              && r.result.value.owner in users
              && r.result.value.owner.cpf == cpf
              && r.result.value == Account(agency, number, r.result.value.owner, 0, [], 0)
  {
    if !ValidCpf(cpf) then AccountOpening(accounts, Err(InvalidCpf))
    else
      match FindUser(cpf, users)
      case Some(user) =>
        var account := Account(agency, number, user, 0, [], 0);
        AccountOpening(accounts + [account], Ok(account))
      case None => AccountOpening(accounts, Err(UserNotFound))
  }

  /** Account k (counting from 1) carries number k. */
  predicate NumberedInOrder(accounts: seq<Account>) {
    forall k :: 0 <= k < |accounts| ==> accounts[k].number == k + 1
  }

  /** Option "nc" of `main`: `numero_conta = len(contas) + 1`, then
      `criar_conta`. Accounts opened this way stay numbered in order, so no two
      share a number. */
  function OpenNextAccount(agency: string, cpf: string, users: seq<User>, accounts: seq<Account>): (r: AccountOpening)
    ensures NumberedInOrder(accounts) ==> NumberedInOrder(r.accounts)
    ensures r.result.Ok? <==> ValidCpf(cpf) && Registered(cpf, users)
    ensures r.result.Ok? ==> r.accounts == accounts + [r.result.value]
    ensures r.result.Ok? ==> r.result.value.number == |accounts| + 1
    ensures r.result.Err? ==> r.accounts == accounts
  {
    CreateAccount(agency, |accounts| + 1, cpf, users, accounts)
  }
}

=== FILE: single_account.dfy ===
/** The first version of the program: one account kept in `main` as the
    triple `(saldo, extrato, numero_saques)`, changed only by the menu options
    "d" and "s". */
module SingleAccount {
  import opened Ledger
  import Engine

  /** `limite = 500` reais per withdrawal, in centavos. */
  const WITHDRAWAL_LIMIT: int := 50000
  /** `limite_saques = 3`: withdrawals allowed in the whole session. */
  const MAX_WITHDRAWALS: int := 3

  /** The triple `main` threads through `depositar` and `sacar`. */
  datatype State = State(balance: int, statement: seq<Txn>, withdrawals: int)

  /** `saldo = 0`, `extrato = ""`, `numero_saques = 0`. */
  const Opening: State := State(0, [], 0)

  /** A menu choice that reaches the engine, with the amount that was typed.
      The other choices ("e", "q", anything else) leave the triple as it is. */
  datatype Op = DepositOp(amount: int) | WithdrawOp(amount: int)

  /** What holds of the triple throughout a session: the balance never goes
      negative, the counter stays within its cap, and both agree with the
      statement. */
  predicate Healthy(s: State) {
    && s.balance >= 0
    && 0 <= s.withdrawals <= MAX_WITHDRAWALS
    && Consistent(s.balance, s.statement, s.withdrawals)
  }

  /** The statement line an accepted operation appends. */
  function Line(op: Op): Txn {
    match op
    case DepositOp(v) => Deposit(v)
    case WithdrawOp(v) => Withdrawal(v)
  }

  /** One pass through the menu loop with option "d" or "s". The triple either
      stays exactly as it was or gains the operation's statement line, and a
      healthy triple stays healthy. A deposit takes effect exactly when its
      amount is positive; a withdrawal exactly when `sacar` with `limite = 500`
      and `limite_saques = 3` accepts it. */
  function Step(s: State, op: Op): (s': State)
    ensures s' == s || s'.statement == s.statement + [Line(op)]
    ensures op.DepositOp? ==> s'.withdrawals == s.withdrawals
    ensures Healthy(s) ==> Healthy(s')
    ensures op.DepositOp? ==> (s' != s <==> op.amount > 0)
    ensures op.WithdrawOp? ==>
              (s' != s <==> 0 < op.amount <= s.balance && op.amount <= WITHDRAWAL_LIMIT && s.withdrawals < MAX_WITHDRAWALS)
    ensures s' != s && op.DepositOp? ==> s'.balance == s.balance + op.amount
    ensures s' != s && op.WithdrawOp? ==> s'.balance == s.balance - op.amount && s'.withdrawals == s.withdrawals + 1
  {
    match op
    case DepositOp(v) =>
      var r := Engine.ApplyDeposit(s.balance, v, s.statement);
      State(r.balance, r.statement, s.withdrawals)
    case WithdrawOp(v) =>
      var r := Engine.ApplyWithdrawal(s.balance, v, s.statement, WITHDRAWAL_LIMIT, s.withdrawals, MAX_WITHDRAWALS);
      State(r.balance, r.statement, r.withdrawals)
  }

  /** The menu loop fed a sequence of operations. Statement lines are never
      removed or changed: the old statement is a prefix of the new one, which
      has at most one more line per operation. */
  function Run(s: State, ops: seq<Op>): (r: State)
    ensures s.statement <= r.statement
    ensures |r.statement| <= |s.statement| + |ops|
    decreases |ops|
  {
    if ops == [] then s else Run(Step(s, ops[0]), ops[1..])
  }

  /** Whatever is typed, a session that opens with the initial triple keeps
      it healthy: balance at least zero, at most three withdrawals, and the
      balance equal to deposits minus withdrawals on the statement. */
  lemma {:induction false} SessionStaysHealthy(s: State, ops: seq<Op>)
    requires Healthy(s)
    ensures Healthy(Run(s, ops))
    decreases |ops|
  {
    if ops != [] {
      SessionStaysHealthy(Step(s, ops[0]), ops[1..]);
    }
  }

  /** The session from `main`'s opening triple is always healthy. */
  lemma OpeningSessionHealthy(ops: seq<Op>)
    ensures Healthy(Run(Opening, ops))
  {
    SessionStaysHealthy(Opening, ops);
  }

  /** Deposit 100,00 then withdraw 50,00; from there 600,00 is refused (over
      the limit) and so is 1000,00 (over the balance). After three
      withdrawals of 30,00 a fourth is refused whatever its amount. */
  lemma Scenario()
    ensures Run(Opening, [DepositOp(10000), WithdrawOp(5000)]) == State(5000, [Deposit(10000), Withdrawal(5000)], 1)
    ensures var s := Run(Opening, [DepositOp(10000), WithdrawOp(5000)]);
            Step(s, WithdrawOp(60000)) == s && Step(s, WithdrawOp(100000)) == s
    ensures var s := Run(Opening, [DepositOp(20000), WithdrawOp(3000), WithdrawOp(3000), WithdrawOp(3000)]);
            s.withdrawals == 3 && s.balance == 11000 && Step(s, WithdrawOp(3000)) == s
  {
  }
}

=== FILE: text.dfy ===
/** The two `str` predicates the banking core relies on: `isdigit` (CPF
    validation) and `strip` (the customer's name). */
module Text {

  /** A decimal digit. Python's `str.isdigit` also accepts non-ASCII digits
      (superscripts, other scripts); only '0'..'9' are modelled. */
  predicate IsDigit(c: char) {
    '0' <= c <= '9'
  }

  /** The characters for which Python's `str.isspace` holds, which are the ones
      `str.strip()` removes when called without arguments. */
  predicate IsSpace(c: char) {
    || '\U{9}' <= c <= '\U{D}'
    || '\U{1C}' <= c <= ' '
    || c == '\U{85}' || c == '\U{A0}' || c == '\U{1680}'
    || '\U{2000}' <= c <= '\U{200A}'
    || c == '\U{2028}' || c == '\U{2029}' || c == '\U{202F}' || c == '\U{205F}'
    || c == '\U{3000}'
  }

  /** `s.isdigit()`: the empty string is not a digit string. */
  function AllDigits(s: string): (r: bool)
    ensures r <==> |s| > 0 && forall i :: 0 <= i < |s| ==> IsDigit(s[i])
  {
    |s| > 0 && IsDigit(s[0]) && (|s| == 1 || AllDigits(s[1..]))
  }

  /** How many whitespace characters `s.strip()` cuts from the front. */
  function LeadingSpaces(s: string): (n: nat)
    ensures n <= |s|
    ensures forall i :: 0 <= i < n ==> IsSpace(s[i])
    ensures n < |s| ==> !IsSpace(s[n])
  {
    if |s| > 0 && IsSpace(s[0]) then 1 + LeadingSpaces(s[1..]) else 0
  }

  /** How many whitespace characters `s.strip()` cuts from the back. */
  function TrailingSpaces(s: string): (n: nat)
    ensures n <= |s|
    ensures forall i :: |s| - n <= i < |s| ==> IsSpace(s[i])
    ensures n < |s| ==> !IsSpace(s[|s| - n - 1])
  {
    if |s| > 0 && IsSpace(s[|s| - 1]) then 1 + TrailingSpaces(s[..|s| - 1]) else 0
  }

  /** `s.strip()`: the infix of `s` that neither starts nor ends with
      whitespace, everything cut away on either side being whitespace. */
  function Strip(s: string): (r: string)
    ensures LeadingSpaces(s) + |r| <= |s|
    ensures r == s[LeadingSpaces(s)..LeadingSpaces(s) + |r|]
    ensures forall i :: LeadingSpaces(s) + |r| <= i < |s| ==> IsSpace(s[i])
    ensures |r| > 0 ==> !IsSpace(r[0]) && !IsSpace(r[|r| - 1])
    ensures r == [] <==> forall i :: 0 <= i < |s| ==> IsSpace(s[i])
  {
    var lo := LeadingSpaces(s);
    if lo == |s| then []
    else
      var hi := |s| - TrailingSpaces(s);
      s[lo..hi]
  }

  /** Stripping a stripped string changes nothing. */
  lemma StripIdempotent(s: string)
    ensures Strip(Strip(s)) == Strip(s)
  {
  }
}

=== FILE: wrappers.dfy ===
/** Failure-carrying return values used in place of Python's `None` returns
    and printed error messages. */
module Wrappers {

  /** A value that may be absent (Python's `None`). */
  datatype Option<+T> = None | Some(value: T)

  /** Either a value or the reason it could not be produced. */
  datatype Result<+T, +E> = Ok(value: T) | Err(error: E)
}
